=== FILE: README.md ===
# GameLinker, modelled in Dafny

`GameLinker` (one Ruby class) enriches a catalog of Steam appids with metadata. It buffers
(appid, name) pairs and flushes them to the Steam detail provider. It classifies each answer
and writes the result to three MySQL tables: `games`, `genres` and `genre_mappings`. It also
keeps a cache of last-update times for staleness checks, and it scores candidate titles from
Giant Bomb and Metacritic by normalized edit distance.

This project models that core as follows. Transport, HTML and JSON parsing, and SQL text are
left out. Provider replies arrive as decoded values, the clock is a parameter, and the tables
are a datatype value.

- `common.dfy` (module `Common`): `Option`, `Result`, appids, times, Ruby's `compact` and `compact!`
- `edit_distance.dfy` (module `EditDistance`): an optimal-string-alignment edit distance and its two key facts
- `provider.dfy` (module `Provider`): the decoded shapes of every provider reply
- `store.dfy` (module `Store`): the tables, and the effect of `insert_app`, `update_game`, `update_app` and `add_genre` on them
- `details.dfy` (module `Details`): the request key and the per-appid processing of a decoded detail reply
- `matching.dfy` (module `Matching`): the score, the in-place sort, `search_giantbomb`, the Metacritic query cleaning and `search_metacritic`
- `extractors.dfy` (module `Extractors`): `steamdb_app`, `get_steam_genres`, `get_giantbomb_genres` and `metacritic`
- `game_linker.dfy` (module `Linker`): the class `GameLinker`: buffer, cache, tables, requests sent and seconds slept

The class methods that change state are proved against the specification functions of
`Store`, `Details` and `Linker` (`FetchBatch`, `ApplyBatch`, `LinkGenres`). The properties
are lemmas about those functions.

Facts about the code that the model keeps:
- The batch size is 1.
- `update_game` never creates a row.
- Staleness checks consult only the cache loaded at start-up. Because the cache is never
  updated, a second lookup of a new appid inserts again and hits the duplicate key
  (`Linker.RepeatedLookupOfNewApp`).
- The sort is Ruby's `sort!`, which does not promise stability. The model promises only
  "sorted and a permutation".

The class pipeline (`Linker.GameLinker.AddGenre`, `LinkAll`, `GetAppDetails` and
`Linker.FetchBatch`) runs the corrected `add_genre`: `Store.AddGenre`, with lines 163 and 165
repaired (see "## Findings"). As written, the first genre in a resolved payload that the
table lacks raises a NameError at line 163. That error is not a JSON parse error, so it leaves
`get_app_details`: the rest of the batch is skipped, and `flush` neither clears the buffer
nor sleeps. `Details.ApplyEntryAsWritten` and `Details.NewGenreRaisesAsWritten` model and
exhibit that.

## Model

| member | source | states |
|---|---|---|
| `EditDistance.Distance` | game-linker.rb:226 | the distance is at least the difference of the two lengths |
| `EditDistance.DistanceAtMostLonger` | game-linker.rb:226 | the distance never exceeds the longer length, so a score is at most 1 |
| `EditDistance.DistanceZeroIff` | game-linker.rb:226 | the distance is 0 exactly when the two strings are equal |
| `Matching.Score` | game-linker.rb:226 | distance over the longer length lies in [0,1] and is 0 iff title equals name; both strings empty is excluded (division by zero) |
| `Matching.SortByScore` | game-linker.rb:228-230 | the in-place sort leaves the array sorted by ascending score and a permutation of what it held |
| `Matching.SortedCopy` | game-linker.rb:271-273 | the sorted list is sorted by score and a permutation of the unsorted one |
| `Matching.ScoreAll` | game-linker.rb:224-227 | every candidate keeps its place and gets a score in [0,1] that is 0 iff its name equals the query |
| `Matching.SearchGiantbomb` | game-linker.rb:214-232 | an unparsable reply or a status other than "OK" raises; an empty name against an empty title raises; otherwise the result is every candidate scored, sorted ascending, each score in [0,1] and 0 iff exact |
| `Matching.CleanName` | game-linker.rb:252 | the query name contains no `:`, `-` or space |
| `Matching.CleanNameIsOnePass` | game-linker.rb:252 | the three-step gsub chain equals one pass that drops `:` and turns `-` and space into `+` |
| `Matching.LStrip` | game-linker.rb:261 | `lstrip` returns the suffix left after removing only leading whitespace |
| `Matching.RStrip` | game-linker.rb:265 | `rstrip` returns the prefix left after removing only trailing whitespace |
| `Matching.MapResult` | game-linker.rb:258-269 | a result yields a hit iff its stripped platform is `PC`; the hit carries the href, the stripped title and a score in [0,1] that is 0 iff the stripped title equals the name; only an empty name against an empty stripped PC title is excluded (0 / 0.0) |
| `Matching.EmptyNameScoresOne` | game-linker.rb:265-268 | an empty name against a PC result with a non-empty stripped title yields that hit with score 1 |
| `Matching.EmptyNameScore` | game-linker.rb:268 | an empty name is at score 1 from every non-empty title |
| `Matching.MapResults` | game-linker.rb:258-270 | a result's entry is a hit iff the result is PC; each hit carries the result's href and stripped title and a score in [0,1] that is 0 iff that title equals the name |
| `Matching.PcHitsOnly` | game-linker.rb:260-261 | a hit survives the compaction exactly when some PC result produced it |
| `Matching.SearchMetacritic` | game-linker.rb:251-275 | with the intended `compact`: the PC hits, scored, sorted ascending and a permutation of the compacted hits; each score lies in [0,1] and is 0 iff the hit's title equals the name |
| `Matching.SearchMetacriticAsWritten` | game-linker.rb:270-274 | as written, it raises exactly when every result is PC (including no results); otherwise it returns the sorted PC hits, each score in [0,1] and 0 iff the title equals the name |
| `Matching.AllPcSearchRaises` | game-linker.rb:270-271 | a single PC hit makes `compact!` answer nil, while the intended list holds that hit with score 0 |
| `Common.Compact` | game-linker.rb:211 | `compact`: no longer than its input, and a value is in it iff it was present in the input |
| `Common.CompactKeepsAll` | game-linker.rb:211 | compacting keeps the length exactly when no element is nil |
| `Common.CompactInPlace` | game-linker.rb:211 | `compact!` answers nil iff no changes were made (the length is kept), which is iff no element was nil, and otherwise the compacted list |
| `Common.CompactAppend` | game-linker.rb:205-211 | compaction keeps the order of the present values |
| `Extractors.LastValueIsLastSetting` | game-linker.rb:185-197 | a key gets the value of the last row with two or more cells that names it, and no value when no row names it |
| `Extractors.SteamdbApp` | game-linker.rb:178-200 | each of `steam_appid`, `name`, `type` and `metacritic` url is that last value for its row label |
| `Extractors.GetSteamGenres` | game-linker.rb:202-212 | with the intended `compact`: a text is returned iff some link whose href contains `genre` carries it |
| `Extractors.SteamGenresInOrder` | game-linker.rb:205-211 | the genre texts come out in page order, one link at a time |
| `Extractors.GetSteamGenresAsWritten` | game-linker.rb:202-212 | as written, nil iff every link is a genre link, otherwise the genre texts |
| `Extractors.OnlyGenreLinksGiveNil` | game-linker.rb:205-211 | a page with one genre link yields nil as written and `["Action"]` as intended |
| `Extractors.GetGiantbombGenres` | game-linker.rb:234-249 | an unparsable reply or bad status raises; empty results give no genres; a results object without `genres` raises; otherwise the genre names in order |
| `Extractors.Metacritic` | game-linker.rb:277-289 | the href is returned iff there is exactly one metalink; zero or several give nil |
| `Store.FindGenre` | game-linker.rb:159 | the lookup finds the first genre row with that name, and nothing iff no row has it |
| `Store.InsertApp` | game-linker.rb:119-121 | a new appid gains exactly one bare row and nothing else changes; an existing appid is a duplicate-key error |
| `Store.UpdateGame` | game-linker.rb:125-138 | only an existing row changes: its title, type and timestamp are set; metacritic is overwritten only by a present, non-empty url |
| `Store.UpdateApp` | game-linker.rb:142-152 | afterwards the row exists with the given title, type and timestamp; an existing metacritic is kept; no other row changes |
| `Store.InsertMapping` | game-linker.rb:168 | the mapping insert fails iff the pair exists, and otherwise adds exactly that pair |
| `Store.AddGenre` | game-linker.rb:157-172 | the genre is inserted only if no row has its name; the mappings become the old ones plus (appid, genre id); the table invariant is kept |
| `Store.AddGenreIdempotent` | game-linker.rb:167-171 | linking the same genre to the same game twice has the effect of linking it once |
| `Store.RelinkIsNoOp` | game-linker.rb:167-171 | re-adding an existing pair changes nothing |
| `Store.UpdateGameTwice` | game-linker.rb:125-138 | writing the same payload twice equals one write at the later time |
| `Store.UpdateAppTwice` | game-linker.rb:142-152 | the same for the insert-or-update |
| `Store.AddGenreAsWritten` | game-linker.rb:157-172 | as written, no mapping is ever added; a new genre is inserted and the call raises |
| `Store.AsWrittenNeverLinksExisting` | game-linker.rb:159-171 | an existing genre stays unlinked as written, but is linked as intended |
| `Store.AsWrittenRaisesOnNewGenre` | game-linker.rb:161-163 | a new genre is inserted and the call raises as written, while the intended operation links it |
| `Details.DecimalRoundTrip` | game-linker.rb:62 | reading an appid's decimal string back gives the appid |
| `Details.SplitJoin` | game-linker.rb:62 | splitting a comma-joined list of comma-free pieces gives the pieces back |
| `Details.RequestKey` | game-linker.rb:62 | the request key holds only digits and commas |
| `Details.RequestKeyRoundTrip` | game-linker.rb:62 | the request key names exactly the batch's appids, in batch order |
| `Details.LinkGenres` | game-linker.rb:83-87 | linking genres leaves the game rows alone and keeps the table invariant |
| `Details.LinkGenresOnlyAdds` | game-linker.rb:83-87 | linking a payload's genres keeps the old genre rows and links, and adds links only for that appid |
| `Details.LinkGenresLinksEach` | game-linker.rb:83-87 | after linking, every listed genre exists and is linked to the payload's appid |
| `Details.AddNewGenre` | game-linker.rb:161-168 | a missing genre is appended and linked under its new id |
| `Details.ApplyEntry` | game-linker.rb:78-91 | one appid raises iff its entry is missing or a success has no data; only a failure counts as unresolved; no row is deleted, no other appid's row changes, and the table invariant is kept; a success with data writes the appid's existing row with the payload's name, type and the time, and its metacritic url only when present and non-empty, adding no row; a failure leaves the appid's row holding the catalog name, type 'unknown' and the time, with genres and links unchanged |
| `Details.ApplyBatch` | game-linker.rb:76-92 | after an exception nothing more happens; the unresolved count grows by at most the batch length |
| `Details.ApplyBatchTouchesOnlyItsRows` | game-linker.rb:76-92 | processing a batch keeps the table invariant, deletes no row and leaves every row outside the batch unchanged |
| `Details.UnresolvedBecomesUnknown` | game-linker.rb:88-91 | a failed appid is stored as 'unknown' under its catalog name, costs one pause and gets no genre link |
| `Details.TwoNewGenresLinked` | game-linker.rb:79-87 | a resolved appid with two new genres adds two genre rows and two links, keyed by the payload's `steam_appid` |
| `Details.LinkGenresAsWritten` | game-linker.rb:84-86 | with `add_genre` as written no link is ever made, and the loop raises iff some listed genre is missing from the table |
| `Details.ApplyEntryAsWritten` | game-linker.rb:78-91 | with `add_genre` as written, processing an appid never adds a link |
| `Details.NewGenreRaisesAsWritten` | game-linker.rb:83-87 | a resolved payload listing a genre the table lacks raises as written, while the corrected processing does not raise |
| `Linker.FetchBatch` | game-linker.rb:60-96 | it never ends idle; it is still retrying iff every reply is empty, and drops the batch iff the first non-empty reply is not JSON, in both cases writing nothing; pauses are 5 per empty reply plus at most 2 per appid; rows are never deleted and the table invariant is kept |
| `Linker.UnparsableWritesNothing` | game-linker.rb:72-95 | a reply that is not JSON drops the batch and writes nothing |
| `Linker.FirstAnswer` | game-linker.rb:65-70 | the retries are the leading empty replies; the next reply, if any, has a body |
| `Linker.StalenessOf` | game-linker.rb:103-105 | the answer is infinite iff the appid is uncached or its time is nil; otherwise days times 86400 is the elapsed time |
| `Linker.RepeatedLookupOfNewApp` | game-linker.rb:101-106 | on a fresh linker over empty tables, the first lookup of an appid answers infinity and the second raises the duplicate key, since line 102 consults only the cache and line 120 inserts again |
| `Linker.GameLinker.constructor` | game-linker.rb:31-36 | the cache holds exactly the rows' appids with their update times; the buffer is empty |
| `Linker.GameLinker.AddGame` | game-linker.rb:48-52 | the batch sent is the old buffer plus the pair; on return the buffer is empty; an exception or endless retry leaves the pair buffered |
| `Linker.GameLinker.Flush` | game-linker.rb:54-58 | an empty buffer sends nothing; otherwise the buffer is sent as one batch; on return the buffer is cleared and one second slept |
| `Linker.GameLinker.GetAppDetails` | game-linker.rb:60-96 | one request per attempt, keyed by the batch; an unparsable reply writes nothing; a decoded one applies every appid in order, as `ApplyBatch` states, with the corrected `add_genre` |
| `Linker.GameLinker.ProcessEntry` | game-linker.rb:78-91 | the loop body for one appid raises, writes the store and sleeps exactly as `Details.ApplyEntry` states |
| `Linker.GameLinker.LinkAll` | game-linker.rb:83-87 | the corrected `add_genre` for each description, in order |
| `Linker.GameLinker.DaysSinceUpdated` | game-linker.rb:101-106 | a cached appid changes nothing; an unknown appid gets one bare row and the answer infinity; an uncached stored appid raises a duplicate key; the cache never changes; afterwards the appid always has a row |
| `Linker.GameLinker.InsertApp` | game-linker.rb:119-121 | the store becomes `Store.InsertApp` of the old one, or stays as it was on a duplicate key |
| `Linker.GameLinker.UpdateGame` | game-linker.rb:125-138 | the store becomes `Store.UpdateGame` of the old one; nothing else changes |
| `Linker.GameLinker.UpdateApp` | game-linker.rb:142-152 | the store becomes `Store.UpdateApp` of the old one; nothing else changes |
| `Linker.GameLinker.AddGenre` | game-linker.rb:157-172 | with lines 163 and 165 corrected, the lookup, insert and rescued mapping insert together equal `Store.AddGenre` |

## Left out

- `get_apps` (game-linker.rb:39-46) is not modelled. It is an HTTP call plus JSON parsing that yields the catalog.
- `app_exists?` (game-linker.rb:111-115) is not modelled. Nothing in the class calls it.
- HTTP transport, URI building, Nokogiri selectors and JSON parsing are not modelled. Their results are inputs: decoded replies, table rows as cell lists, links, and search results. An unparsable body is a separate variant.
- The `Database` class is not part of this model. Statements act on abstract tables with MySQL's usual semantics: `appid` is the key of `games` and a mapping pair is unique. SQL text and `escape` are not modelled.
- Genre ids are row positions. They stand for the real `AUTO_INCREMENT` ids by an order-preserving renaming: only the identity and the order of ids matter here, so gaps in the real ids do not.
- Genre names are compared exactly. A case-insensitive collation would merge names that differ only in case.
- Logging and `puts` are not modelled, including the info/warn distinction in `metacritic`.
- `sleep` is a counter of seconds (`slept`); no time passes in the model.
- `CURRENT_TIMESTAMP` and `Time.now` are the parameter `now`. All writes of one batch share one `now`.
- Float division by 86400.0 is exact real division.
- The unbounded retry on a nil reply takes a finite list of replies, one per attempt. If every reply is empty, the outcome is `StillRetrying`, standing for the recursion that has not ended.
- The detail reply is keyed by appid. The source keys it by the appid's decimal string.
- Payload fields the code reads as strings are required strings: `name`, `type`, genre `description`, `steam_appid`, `href`. A nil in one of them, and what the SQL or string call then does, is not modelled. A missing entry for an appid and a success without `data` are modelled; both raise.
- The edit distance library is not part of this model. Lines 226 and 268 call it with its default options: the default block size and the default distance cap. `EditDistance.Distance` is the uncapped optimal-string-alignment distance. The cap, which clips the distance of long titles and can change the ranking, is not modelled.
- Whitespace for `lstrip`/`rstrip` is space, tab, line feed, vertical tab, form feed and carriage return. Handling of NUL is not modelled.
- `Matching.SearchMetacritic`: excludes an empty name against a PC result whose title strips to nothing. There, line 268 divides 0 by 0.0 and gives NaN, and `sort!` then raises on comparing it with any other hit. NaN is not modelled. Scores are exact reals rather than floats.
- `Matching.SearchMetacriticAsWritten`: excludes the same case.
- `Matching.MapResult`: excludes the same case; `Matching.MapResults` and `Matching.PcHitsOnly` likewise.
- `Linker.GameLinker.GetAppDetails`: runs the corrected `add_genre`. As written, a payload with a genre the table lacks raises out of the call; `Details.NewGenreRaisesAsWritten` states this per appid, and no as-written batch or buffer-level model exists.
- The store operations are functions on a tables value, which the class assigns to its `db` field. There is no aliasing to model.

## Findings

| source | as written | input that shows it | evidently intended | confidence | as-written member | corrected member |
|---|---|---|---|---|---|---|
| game-linker.rb:165 | reads `genre_id` from a row selected as `id`, so the id is nil; the mapping insert is malformed and its error is swallowed | `genres` already holds "Action"; `add_genre(20, "Action")` | link appid 20 to the existing genre's id | not executed; high if the database wrapper returns rows keyed by column name | `Store.AddGenreAsWritten`, `Store.AsWrittenNeverLinksExisting` | `Store.AddGenre` |
| game-linker.rb:163 | calls the undefined `db`; NameError after the genre row is inserted, so the genre is never linked and the exception leaves `get_app_details` | empty `genres`; `add_genre(20, "RPG")` | take the new id from `@db` and link it | not executed; high | `Store.AddGenreAsWritten`, `Store.AsWrittenRaisesOnNewGenre`, `Details.NewGenreRaisesAsWritten` | `Store.AddGenre` |
| game-linker.rb:211 | `compact!` answers nil when no element was removed, so the method returns nil | one link with href `/genre/Action/` | return `["Action"]` | not executed; high | `Extractors.GetSteamGenresAsWritten`, `Extractors.OnlyGenreLinksGiveNil` | `Extractors.GetSteamGenres` |
| game-linker.rb:270-271 | `compact!` answers nil when every result is PC, and `nil.sort!` raises | one result with platform " PC " and title "Portal" | return the sorted PC hits | not executed; high | `Matching.SearchMetacriticAsWritten`, `Matching.AllPcSearchRaises` | `Matching.SearchMetacritic` |

=== FILE: common.dfy ===
/** Shared vocabulary of the game linker model: optional values, error returns and the
    identifiers every other module speaks about. */
module Common {

  /** A value that may be missing (Ruby's nil). */
  datatype Option<+T> = None | Some(value: T)

  /** The outcome of an operation that may raise. */
  datatype Result<+R, +E> = Success(value: R) | Failure(error: E)

  /** A catalog identifier (a Steam appid). */
  type AppId = nat

  /** A point in time, in whole seconds. */
  type Time = int

  /** Ruby's `compact`: the present values, in order. */
  function Compact<T(!new)>(xs: seq<Option<T>>): (r: seq<T>)
    ensures |r| <= |xs|
    ensures forall x :: x in r <==> Some(x) in xs
  {
    if xs == [] then []
    else
      var rest := Compact(xs[1..]);
      assert forall x :: Some(x) in xs <==> xs[0] == Some(x) || Some(x) in xs[1..];
      if xs[0].Some? then [xs[0].value] + rest else rest
  }

  /** Compacting drops nothing exactly when no element is nil. */
  lemma {:induction false} CompactKeepsAll<T(!new)>(xs: seq<Option<T>>)
    ensures |Compact(xs)| == |xs| <==> forall k :: 0 <= k < |xs| ==> xs[k].Some?
  {
    if xs != [] {
      CompactKeepsAll(xs[1..]);
      assert forall k :: 1 <= k < |xs| ==> xs[k] == xs[1..][k - 1];
    }
  }

  /** Ruby's `compact!`: compacts in place, but RETURNS nil when no changes were made. */
  function CompactInPlace<T(!new)>(xs: seq<Option<T>>): (r: Option<seq<T>>)
    ensures r.None? <==> |Compact(xs)| == |xs|
    ensures r.None? <==> forall k :: 0 <= k < |xs| ==> xs[k].Some?
    ensures r.Some? ==> r.value == Compact(xs)
  {
    CompactKeepsAll(xs);
    if forall k :: 0 <= k < |xs| ==> xs[k].Some? then None else Some(Compact(xs))
  }

  /** Compacting keeps the order of the present values. */
  lemma {:induction false} CompactAppend<T(!new)>(xs: seq<Option<T>>, ys: seq<Option<T>>)
    ensures Compact(xs + ys) == Compact(xs) + Compact(ys)
  {
    if xs == [] {
      assert xs + ys == ys;
    } else {
      assert (xs + ys)[0] == xs[0];
      assert (xs + ys)[1..] == xs[1..] + ys;
      CompactAppend(xs[1..], ys);
    }
  }
}

=== FILE: details.dfy ===
/** The detail lookup of one batch: the request key built from the batch's appids and, for a
    decoded reply, the store writes made for each appid in batch order. */
module Details {
  import opened Common
  import opened Provider
  import opened Store

  // ---------------------------------------------------------------- request key

  function Digit(d: nat): (c: char)
    requires d < 10
    ensures '0' <= c <= '9' && (c as int) - ('0' as int) == d
  {
    ('0' as int + d) as char
  }

  function DigitValue(c: char): nat
  {
    if '0' <= c <= '9' then (c as int - '0' as int) as nat else 0
  }

  /** `"#{appid}"`: the decimal digits of an appid, most significant first. */
  function Decimal(n: nat): (r: string)
    ensures |r| > 0 && forall k :: 0 <= k < |r| ==> '0' <= r[k] <= '9'
  {
    if n < 10 then [Digit(n)] else Decimal(n / 10) + [Digit(n % 10)]
  }

  /** Reads a string of decimal digits back as a number. */
  function ParseDecimal(s: string): nat
  {
    if s == [] then 0 else ParseDecimal(s[..|s| - 1]) * 10 + DigitValue(s[|s| - 1])
  }

  lemma {:induction false} DecimalRoundTrip(n: nat)
    ensures ParseDecimal(Decimal(n)) == n
  {
    if n >= 10 {
      var s := Decimal(n);
      assert s[..|s| - 1] == Decimal(n / 10);
      DecimalRoundTrip(n / 10);
    }
  }

  /** `join(',')`. */
  function Join(parts: seq<string>, sep: char): string
  {
    if |parts| == 0 then []
    else if |parts| == 1 then parts[0]
    else parts[0] + [sep] + Join(parts[1..], sep)
  }

  /** The inverse reading: the pieces between separators. */
  function Split(s: string, sep: char): (r: seq<string>)
    ensures |r| > 0
  {
    if s == [] then [[]]
    else
      var rest := Split(s[1..], sep);
      if s[0] == sep then [[]] + rest else [[s[0]] + rest[0]] + rest[1..]
  }

  lemma {:induction false} SplitFront(p: string, q: string, sep: char)
    requires sep !in p
    ensures Split(p + q, sep) == [p + Split(q, sep)[0]] + Split(q, sep)[1..]
  {
    if p != [] {
      assert (p + q)[0] == p[0] && (p + q)[1..] == p[1..] + q;
      SplitFront(p[1..], q, sep);
      assert [p[0]] + (p[1..] + Split(q, sep)[0]) == p + Split(q, sep)[0];
    } else {
      var sq := Split(q, sep);
      assert p + q == q && p + sq[0] == sq[0];
      assert [sq[0]] + sq[1..] == sq;
    }
  }

  /** Splitting a joined list of separator-free pieces gives the pieces back. */
  lemma {:induction false} SplitJoin(parts: seq<string>, sep: char)
    requires |parts| > 0
    requires forall k :: 0 <= k < |parts| ==> sep !in parts[k]
    ensures Split(Join(parts, sep), sep) == parts
  {
    if |parts| == 1 {
      SplitFront(parts[0], [], sep);
      assert parts[0] + [] == parts[0];
    } else {
      var rest := Join(parts[1..], sep);
      SplitJoin(parts[1..], sep);
      assert parts[0] + [sep] + rest == parts[0] + ([sep] + rest);
      SplitFront(parts[0], [sep] + rest, sep);
      assert ([sep] + rest)[0] == sep && ([sep] + rest)[1..] == rest;
      assert parts[0] + [] == parts[0];
      assert parts == [parts[0]] + parts[1..];
    }
  }

  /** The appids of a batch, in batch order. */
  function AppIds(batch: seq<(AppId, string)>): (r: seq<AppId>)
    ensures |r| == |batch| && forall k :: 0 <= k < |r| ==> r[k] == batch[k].0
  {
    seq(|batch|, k requires 0 <= k < |batch| => batch[k].0)
  }

  /** A string of digits and commas only, which a query string carries unescaped. */
  predicate DigitsAndCommas(s: string)
  {
    forall k :: 0 <= k < |s| ==> s[k] == ',' || '0' <= s[k] <= '9'
  }

  lemma {:induction false} JoinKeepsDigits(parts: seq<string>)
    requires forall k :: 0 <= k < |parts| ==> DigitsAndCommas(parts[k])
    ensures DigitsAndCommas(Join(parts, ','))
    decreases |parts|
  {
    if |parts| > 1 {
      JoinKeepsDigits(parts[1..]);
      assert DigitsAndCommas(parts[1..][0]);
      var rest := Join(parts[1..], ',');
      assert Join(parts, ',') == parts[0] + [','] + rest;
      assert DigitsAndCommas(parts[0]);
    }
  }

  /** The `appids=` value of the detail request: the batch's appids joined by commas. */
  function RequestKey(batch: seq<(AppId, string)>): (r: string)
    ensures DigitsAndCommas(r)
  {
    var parts := seq(|batch|, k requires 0 <= k < |batch| => Decimal(batch[k].0));
    JoinKeepsDigits(parts);
    Join(parts, ',')
  }

  /** Reads the appids back out of a request key. */
  function ParseRequestKey(key: string): seq<nat>
  {
    var pieces := Split(key, ',');
    seq(|pieces|, k requires 0 <= k < |pieces| => ParseDecimal(pieces[k]))
  }

  /** The request key names exactly the batch's appids, in batch order. */
  lemma RequestKeyRoundTrip(batch: seq<(AppId, string)>)
    requires |batch| > 0
    ensures ParseRequestKey(RequestKey(batch)) == AppIds(batch)
  {
    var parts := seq(|batch|, k requires 0 <= k < |batch| => Decimal(batch[k].0));
    forall k | 0 <= k < |parts| ensures ',' !in parts[k] {
      assert forall m :: 0 <= m < |parts[k]| ==> '0' <= parts[k][m] <= '9';
    }
    SplitJoin(parts, ',');
    forall k | 0 <= k < |batch| ensures ParseDecimal(parts[k]) == batch[k].0 {
      DecimalRoundTrip(batch[k].0);
    }
  }

  // ---------------------------------------------------------------- store writes

  /** add_genre for each genre description in order, keyed by one appid. */
  function LinkGenres(t: Tables, appid: AppId, genres: seq<GenreDesc>): (r: Tables)
    ensures r.games == t.games
    ensures Valid(t) ==> Valid(r)
    decreases |genres|
  {
    if genres == [] then t
    else LinkGenres(AddGenre(t, appid, genres[0].description), appid, genres[1..])
  }

  /** An existing genre keeps its id when more genres are appended. */
  lemma FindGenreExtended(g: seq<string>, extra: seq<string>, name: string)
    requires name in g
    ensures FindGenre(g + extra, name) == FindGenre(g, name)
  {
    var i := FindGenre(g, name).value;
    assert (g + extra)[i] == name;
  }

  /** Linking only adds: earlier genre rows are kept as they were, the old links stay,
      and no other appid gains a link. */
  lemma {:induction false} LinkGenresOnlyAdds(t: Tables, appid: AppId, genres: seq<GenreDesc>)
    ensures var r := LinkGenres(t, appid, genres);
      && |t.genres| <= |r.genres| && r.genres[..|t.genres|] == t.genres
      && t.mappings <= r.mappings
      && (forall m :: m in r.mappings && m !in t.mappings ==> m.0 == appid)
    decreases |genres|
  {
    if genres != [] {
      var t1 := AddGenre(t, appid, genres[0].description);
      LinkGenresOnlyAdds(t1, appid, genres[1..]);
      var r := LinkGenres(t1, appid, genres[1..]);
      assert t1.genres[..|t.genres|] == t.genres;
      assert r.genres[..|t1.genres|] == t1.genres;
      assert r.genres[..|t.genres|] == r.genres[..|t1.genres|][..|t.genres|];
    }
  }

  /** The first listed genre stays found and linked while the rest are linked. */
  lemma LinkGenresLinksFirst(t: Tables, appid: AppId, genres: seq<GenreDesc>)
    requires |genres| > 0
    ensures var r := LinkGenres(t, appid, genres);
      && FindGenre(r.genres, genres[0].description).Some?
      && (appid, FindGenre(r.genres, genres[0].description).value) in r.mappings
  {
    var name := genres[0].description;
    var t1 := AddGenre(t, appid, name);
    var r := LinkGenres(t1, appid, genres[1..]);
    assert LinkGenres(t, appid, genres) == r;
    LinkGenresOnlyAdds(t1, appid, genres[1..]);
    assert r.genres == t1.genres + r.genres[|t1.genres|..];
    FindGenreExtended(t1.genres, r.genres[|t1.genres|..], name);
  }

  /** After linking, every listed genre exists and is linked to the appid. */
  lemma {:induction false} LinkGenresLinksEach(t: Tables, appid: AppId, genres: seq<GenreDesc>, k: nat)
    requires k < |genres|
    ensures var r := LinkGenres(t, appid, genres);
      && FindGenre(r.genres, genres[k].description).Some?
      && (appid, FindGenre(r.genres, genres[k].description).value) in r.mappings
    decreases |genres|
  {
    if k == 0 {
      LinkGenresLinksFirst(t, appid, genres);
    } else {
      var t1 := AddGenre(t, appid, genres[0].description);
      assert LinkGenres(t, appid, genres) == LinkGenres(t1, appid, genres[1..]);
      LinkGenresLinksEach(t1, appid, genres[1..], k - 1);
      assert genres[k] == genres[1..][k - 1];
    }
  }

  /** add_genre of a genre not yet in the table appends it and links the new id. */
  lemma AddNewGenre(t: Tables, appid: AppId, name: string)
    requires name !in t.genres
    ensures AddGenre(t, appid, name)
         == t.(genres := t.genres + [name], mappings := t.mappings + {(appid, |t.genres|)})
  {
    FindGenreExtended(t.genres + [name], [], name);
    assert t.genres + [name] + [] == t.genres + [name];
  }

  /** Where the processing of a batch stands: the tables, how many appids came back
      unresolved (each costs a pause), and whether an exception ended it. */
  datatype Progress = Progress(db: Tables, unresolved: nat, crashed: bool)

  /** The body of the loop over the batch for one appid: a missing entry or a success
      without data raises; a success updates the game and links its genres under the
      payload's own `steam_appid`; anything else records the appid as 'unknown'. */
  function ApplyEntry(p: Progress, appid: AppId, name: string, entries: map<AppId, AppEntry>, now: Time): (r: Progress)
    ensures r.crashed <==>
      p.crashed || appid !in entries || (entries[appid].success && entries[appid].data.None?)
    ensures r.unresolved ==
      if appid in entries && !entries[appid].success then p.unresolved + 1 else p.unresolved
    ensures Valid(p.db) ==> Valid(r.db)
    ensures p.db.games.Keys <= r.db.games.Keys
    ensures forall a :: a in p.db.games && a != appid ==> r.db.games[a] == p.db.games[a]
    ensures appid in entries && entries[appid].success && entries[appid].data.Some? ==>
      var d := entries[appid].data.value;
      && r.crashed == p.crashed && r.db.games.Keys == p.db.games.Keys
      && (appid in p.db.games ==>
        && r.db.games[appid].title == Some(d.name)
        && r.db.games[appid].appType == Some(d.appType)
        && r.db.games[appid].updated == Some(now)
        && r.db.games[appid].metacritic ==
             (if HasMetacriticUrl(d) then d.metacritic.value.url else p.db.games[appid].metacritic))
    ensures appid in entries && !entries[appid].success ==>
      && appid in r.db.games
      && r.db.games[appid].title == Some(name)
      && r.db.games[appid].appType == Some("unknown")
      && r.db.games[appid].updated == Some(now)
      && r.db.genres == p.db.genres && r.db.mappings == p.db.mappings
  {
    if appid !in entries then p.(crashed := true)
    else if entries[appid].success then
      match entries[appid].data
      case None => p.(crashed := true)
      case Some(d) =>
        var t := UpdateGame(p.db, appid, d, now);
        p.(db := if d.genres.Some? then LinkGenres(t, d.steamAppid, d.genres.value) else t)
    else
      p.(db := UpdateApp(p.db, appid, name, "unknown", now), unresolved := p.unresolved + 1)
  }

  /** The loop over the batch, in batch order, stopping at the first exception. */
  function ApplyBatch(p: Progress, batch: seq<(AppId, string)>, entries: map<AppId, AppEntry>, now: Time): (r: Progress)
    ensures p.crashed ==> r == p
    ensures p.unresolved <= r.unresolved <= p.unresolved + |batch|
    decreases |batch|
  {
    if batch == [] || p.crashed then p
    else ApplyBatch(ApplyEntry(p, batch[0].0, batch[0].1, entries, now), batch[1..], entries, now)
  }

  /** Processing a batch keeps the table invariants, never deletes a game row and leaves
      every game row outside the batch as it was. */
  lemma {:induction false} ApplyBatchTouchesOnlyItsRows(p: Progress, batch: seq<(AppId, string)>,
                                                        entries: map<AppId, AppEntry>, now: Time)
    ensures var r := ApplyBatch(p, batch, entries, now);
      && (Valid(p.db) ==> Valid(r.db))
      && p.db.games.Keys <= r.db.games.Keys
      && p.unresolved <= r.unresolved
      && forall a :: a in p.db.games && a !in AppIds(batch) ==> r.db.games[a] == p.db.games[a]
    decreases |batch|
  {
    if batch != [] && !p.crashed {
      var q := ApplyEntry(p, batch[0].0, batch[0].1, entries, now);
      ApplyBatchTouchesOnlyItsRows(q, batch[1..], entries, now);
      assert forall a :: a in AppIds(batch[1..]) ==> a in AppIds(batch) by {
        forall a | a in AppIds(batch[1..]) ensures a in AppIds(batch) {
          var k :| 0 <= k < |batch| - 1 && AppIds(batch[1..])[k] == a;
          assert AppIds(batch)[k + 1] == a;
        }
      }
      assert batch[0].0 == AppIds(batch)[0];
    }
  }

  /** An appid the provider reports as failed is stored as 'unknown' under its catalog
      name, and no genre link is made for it. */
  lemma UnresolvedBecomesUnknown(t: Tables, appid: AppId, name: string, now: Time)
    ensures var r := ApplyBatch(Progress(t, 0, false), [(appid, name)], map[appid := AppEntry(false, None)], now);
      && !r.crashed && r.unresolved == 1 && appid in r.db.games
      && r.db.games[appid].appType == Some("unknown")
      && r.db.games[appid].title == Some(name)
      && r.db.mappings == t.mappings && r.db.genres == t.genres
  {
    var q := ApplyEntry(Progress(t, 0, false), appid, name, map[appid := AppEntry(false, None)], now);
    assert [(appid, name)][1..] == [];
    assert ApplyBatch(q, [], map[appid := AppEntry(false, None)], now) == q;
  }

  /** A resolved appid with two new genres gains two genre rows and two links, both
      keyed by the payload's `steam_appid`. */
  lemma TwoNewGenresLinked(t: Tables, appid: AppId, d: AppData, now: Time)
    requires d.genres == Some([GenreDesc("Action"), GenreDesc("RPG")])
    requires "Action" !in t.genres && "RPG" !in t.genres
    ensures var r := ApplyBatch(Progress(t, 0, false), [(appid, d.name)], map[appid := AppEntry(true, Some(d))], now);
      && !r.crashed
      && r.db.genres == t.genres + ["Action", "RPG"]
      && r.db.mappings == t.mappings + {(d.steamAppid, |t.genres|), (d.steamAppid, |t.genres| + 1)}
  {
    var u := UpdateGame(t, appid, d, now);
    AddNewGenre(u, d.steamAppid, "Action");
    var t1 := AddGenre(u, d.steamAppid, "Action");
    assert "RPG" !in t1.genres;
    AddNewGenre(t1, d.steamAppid, "RPG");
    var t2 := AddGenre(t1, d.steamAppid, "RPG");
    assert t2.genres == t.genres + ["Action", "RPG"];
    var gs := [GenreDesc("Action"), GenreDesc("RPG")];
    assert gs[1..][1..] == [];
    assert LinkGenres(u, d.steamAppid, gs) == t2;
    assert [(appid, d.name)][1..] == [];
  }

  // ---------------------------------------------------------------- as written

  /** The genre loop as the source runs it, with add_genre as written: an existing genre
      links nothing, and the first new genre is inserted and raises, ending the loop. The
      boolean is true when it raises. */
  function LinkGenresAsWritten(t: Tables, appid: AppId, genres: seq<GenreDesc>): (r: (Tables, bool))
    ensures r.0.games == t.games && r.0.mappings == t.mappings
    ensures r.1 <==> exists k :: 0 <= k < |genres| && genres[k].description !in t.genres
    decreases |genres|
  {
    if genres == [] then (t, false)
    else
      var (t1, raised) := AddGenreAsWritten(t, appid, genres[0].description);
      if raised then (t1, true)
      else
        assert t1 == t;
        assert forall k :: 1 <= k < |genres| ==> genres[k] == genres[1..][k - 1];
        LinkGenresAsWritten(t1, appid, genres[1..])
  }

  /** The loop body for one appid with add_genre as written. */
  function ApplyEntryAsWritten(p: Progress, appid: AppId, name: string, entries: map<AppId, AppEntry>, now: Time): (r: Progress)
    ensures r.db.mappings == p.db.mappings
  {
    if appid !in entries then p.(crashed := true)
    else if entries[appid].success then
      match entries[appid].data
      case None => p.(crashed := true)
      case Some(d) =>
        var t := UpdateGame(p.db, appid, d, now);
        if d.genres.Some? then
          var (t1, raised) := LinkGenresAsWritten(t, d.steamAppid, d.genres.value);
          p.(db := t1, crashed := p.crashed || raised)
        else p.(db := t)
    else
      p.(db := UpdateApp(p.db, appid, name, "unknown", now), unresolved := p.unresolved + 1)
  }

  /** Finding: a resolved appid whose payload lists a genre the table lacks raises as
      written, so the exception leaves get_app_details and the rest of the batch is skipped;
      the corrected processing completes and links every listed genre. */
  lemma NewGenreRaisesAsWritten(p: Progress, appid: AppId, name: string, entries: map<AppId, AppEntry>, now: Time)
    requires !p.crashed && appid in entries && entries[appid].success && entries[appid].data.Some?
    requires entries[appid].data.value.genres.Some?
    requires exists k :: (0 <= k < |entries[appid].data.value.genres.value|
      && entries[appid].data.value.genres.value[k].description !in p.db.genres)
    ensures ApplyEntryAsWritten(p, appid, name, entries, now).crashed
    ensures ApplyEntryAsWritten(p, appid, name, entries, now).db.mappings == p.db.mappings
    ensures !ApplyEntry(p, appid, name, entries, now).crashed
  {
    var d := entries[appid].data.value;
    var t := UpdateGame(p.db, appid, d, now);
    assert t.genres == p.db.genres;
  }
}

=== FILE: edit_distance.dfy ===
/** The edit distance used to score candidate titles. The repository calls an external
    Damerau-Levenshtein library; this module defines the optimal-string-alignment form of
    that distance (insertions, deletions, substitutions and transpositions of two adjacent
    characters, each costing one) and proves the two facts the scoring relies on. */
module EditDistance {

  function Max(a: nat, b: nat): (r: nat)
    ensures r >= a && r >= b && (r == a || r == b)
  {
    if a >= b then a else b
  }

  function Min(a: nat, b: nat): (r: nat)
    ensures r <= a && r <= b && (r == a || r == b)
  {
    if a <= b then a else b
  }

  /** Optimal-string-alignment distance, defined on prefixes: the last characters of the
      two strings are deleted, inserted, matched or substituted, or swapped as a pair. */
  function Distance(a: string, b: string): (r: nat)
    ensures |a| - |b| <= r && |b| - |a| <= r
    decreases |a| + |b|
  {
    if |a| == 0 then |b|
    else if |b| == 0 then |a|
    else
      var i, j := |a| - 1, |b| - 1;
      var cost := if a[i] == b[j] then 0 else 1;
      var best := Min(Min(Distance(a[..i], b) + 1, Distance(a, b[..j]) + 1),
                      Distance(a[..i], b[..j]) + cost);
      if i > 0 && j > 0 && a[i] == b[j - 1] && a[i - 1] == b[j] then
        Min(best, Distance(a[..i - 1], b[..j - 1]) + 1)
      else
        best
  }

  /** No more edits are needed than the length of the longer string. */
  lemma {:induction false} DistanceAtMostLonger(a: string, b: string)
    ensures Distance(a, b) <= Max(|a|, |b|)
    decreases |a| + |b|
  {
    if |a| > 0 && |b| > 0 {
      DistanceAtMostLonger(a[..|a| - 1], b[..|b| - 1]);
    }
  }

  /** A string is at distance zero from itself. */
  lemma {:induction false} DistanceToSelf(a: string)
    ensures Distance(a, a) == 0
    decreases |a|
  {
    if |a| > 0 {
      DistanceToSelf(a[..|a| - 1]);
    }
  }

  /** Distance zero only between equal strings. */
  lemma {:induction false} DistanceZeroOnlyIfEqual(a: string, b: string)
    requires Distance(a, b) == 0
    ensures a == b
    decreases |a| + |b|
  {
    if |a| > 0 && |b| > 0 {
      var i, j := |a| - 1, |b| - 1;
      assert Distance(a[..i], b[..j]) == 0 && a[i] == b[j];
      DistanceZeroOnlyIfEqual(a[..i], b[..j]);
      assert a == a[..i] + [a[i]] && b == b[..j] + [b[j]];
    }
  }

  /** The two facts together: the distance is zero exactly between equal strings. */
  lemma DistanceZeroIff(a: string, b: string)
    ensures Distance(a, b) == 0 <==> a == b
  {
    if a == b {
      DistanceToSelf(a);
    } else if Distance(a, b) == 0 {
      DistanceZeroOnlyIfEqual(a, b);
    }
  }
}

=== FILE: extractors.dfy ===
/** Small extractors over pages and replies that are already parsed: the steamdb key/value
    table, the genre links of a store page, the Giant Bomb genre list and the single
    metacritic link of a store page. */
module Extractors {
  import opened Common
  import opened Provider

  // ---------------------------------------------------------------- steamdb page

  /** The hash steamdb_app builds: `steam_appid`, `name`, `type`, and `metacritic` => url. */
  datatype AppPage = AppPage(
    steamAppid: Option<string>,
    name: Option<string>,
    appType: Option<string>,
    metacriticUrl: Option<string>)

  /** A table row that sets `key`: it has at least two cells and its first cell is `key`. */
  predicate Sets(row: seq<string>, key: string)
  {
    |row| > 1 && row[0] == key
  }

  /** The second cell of the last row that sets `key`. */
  function LastValue(rows: seq<seq<string>>, key: string): Option<string>
  {
    if rows == [] then None
    else if Sets(rows[|rows| - 1], key) then Some(rows[|rows| - 1][1])
    else LastValue(rows[..|rows| - 1], key)
  }

  /** LastValue finds the value of the last row that sets the key, and nothing when no row
      sets it: a later row overwrites an earlier one. */
  lemma {:induction false} LastValueIsLastSetting(rows: seq<seq<string>>, key: string)
    ensures LastValue(rows, key).None? <==> forall i :: 0 <= i < |rows| ==> !Sets(rows[i], key)
    ensures LastValue(rows, key).Some? ==>
      exists i :: (0 <= i < |rows| && Sets(rows[i], key)
        && LastValue(rows, key).value == rows[i][1]
        && forall j :: i < j < |rows| ==> !Sets(rows[j], key))
    decreases |rows|
  {
    if rows != [] && !Sets(rows[|rows| - 1], key) {
      var init := rows[..|rows| - 1];
      LastValueIsLastSetting(init, key);
      assert forall i :: 0 <= i < |init| ==> init[i] == rows[i];
    }
  }

  /** steamdb_app's loop over the table rows (`.table > tbody > tr`, given as their cells). */
  method SteamdbApp(rows: seq<seq<string>>) returns (page: AppPage)
    ensures page.steamAppid == LastValue(rows, "App ID")
    ensures page.name == LastValue(rows, "Name")
    ensures page.appType == LastValue(rows, "App Type")
    ensures page.metacriticUrl == LastValue(rows, "metacritic_fullurl")
  {
    page := AppPage(None, None, None, None);
    for i := 0 to |rows|
      invariant page.steamAppid == LastValue(rows[..i], "App ID")
      invariant page.name == LastValue(rows[..i], "Name")
      invariant page.appType == LastValue(rows[..i], "App Type")
      invariant page.metacriticUrl == LastValue(rows[..i], "metacritic_fullurl")
    {
      assert rows[..i + 1][..i] == rows[..i];
      var pieces := rows[i];
      if |pieces| > 1 {
        var dataName, dataValue := pieces[0], pieces[1];
        if dataName == "App ID" {
          page := page.(steamAppid := Some(dataValue));
        }
        if dataName == "Name" {
          page := page.(name := Some(dataValue));
        }
        if dataName == "App Type" {
          page := page.(appType := Some(dataValue));
        }
        if dataName == "metacritic_fullurl" {
          page := page.(metacriticUrl := Some(dataValue));
        }
      }
    }
    assert rows[..|rows|] == rows;
  }

  // ---------------------------------------------------------------- store-page genres

  /** Ruby's `include?` on strings. */
  predicate Contains(s: string, sub: string)
    decreases |s|
  {
    if |s| < |sub| then false
    else s[..|sub|] == sub || Contains(s[1..], sub)
  }

  /** The block of `results.map`: the link text for a genre link, nil otherwise. */
  function GenreOf(link: Link): Option<string>
  {
    if Contains(link.href, "genre") then Some(link.content) else None
  }

  function GenreOfEach(links: seq<Link>): (r: seq<Option<string>>)
    ensures |r| == |links| && forall k :: 0 <= k < |links| ==> r[k] == GenreOf(links[k])
  {
    seq(|links|, k requires 0 <= k < |links| => GenreOf(links[k]))
  }

  /** get_steam_genres with the evidently intended `compact`: the texts of the genre links. */
  function GetSteamGenres(links: seq<Link>): (r: seq<string>)
    ensures |r| <= |links|
    ensures forall x :: x in r <==>
      exists k :: 0 <= k < |links| && Contains(links[k].href, "genre") && links[k].content == x
  {
    var m := GenreOfEach(links);
    assert forall x :: Some(x) in m <==> exists k :: 0 <= k < |links| && m[k] == Some(x);
    Compact(m)
  }

  /** The genre texts come out in page order: one link at a time, left to right. */
  lemma SteamGenresInOrder(links: seq<Link>, more: seq<Link>)
    ensures GetSteamGenres(links + more) == GetSteamGenres(links) + GetSteamGenres(more)
    ensures |links| == 1 ==>
      GetSteamGenres(links) == (if Contains(links[0].href, "genre") then [links[0].content] else [])
  {
    assert GenreOfEach(links + more) == GenreOfEach(links) + GenreOfEach(more);
    CompactAppend(GenreOfEach(links), GenreOfEach(more));
    if |links| == 1 {
      assert GenreOfEach(links)[1..] == [];
    }
  }

  /** get_steam_genres as written: `compact!` answers nil when no link was dropped, so a
      page whose links are all genre links (or that has none) yields nil. */
  function GetSteamGenresAsWritten(links: seq<Link>): (r: Option<seq<string>>)
    ensures r.None? <==> forall k :: 0 <= k < |links| ==> Contains(links[k].href, "genre")
    ensures r.Some? ==> r.value == GetSteamGenres(links)
  {
    CompactInPlace(GenreOfEach(links))
  }

  /** Finding: a page with a single genre link yields nil as written, instead of that
      genre. */
  lemma OnlyGenreLinksGiveNil()
    ensures var links := [Link("/genre/Action/", "Action")];
      GetSteamGenresAsWritten(links) == None && GetSteamGenres(links) == ["Action"]
  {
    var links := [Link("/genre/Action/", "Action")];
    assert links[0].href[1..][..5] == "genre";
    assert Contains(links[0].href, "genre");
    SteamGenresInOrder(links, []);
    assert links + [] == links;
  }

  // ---------------------------------------------------------------- Giant Bomb genres

  /** get_giantbomb_genres: raises on an unparsable reply or a status other than "OK";
      an empty `results` gives no genres; otherwise the names of `results['genres']`,
      which raises when that key is missing. */
  function GetGiantbombGenres(response: GameResponse): (r: Result<seq<string>, ProviderError>)
    ensures response.GameUnparsable? ==> r == Failure(Malformed)
    ensures response.GameParsed? && response.status != "OK" ==> r == Failure(BadStatus(response.status))
    ensures r.Success? <==>
      response.GameParsed? && response.status == "OK" && !response.results.WithoutGenres?
    ensures r.Success? && response.results.NoFields? ==> r.value == []
    ensures r.Success? && response.results.WithGenres? ==>
      |r.value| == |response.results.genres|
      && forall k :: 0 <= k < |r.value| ==> r.value[k] == response.results.genres[k].name
  {
    match response
    case GameUnparsable => Failure(Malformed)
    case GameParsed(status, results) =>
      if status != "OK" then Failure(BadStatus(status))
      else
        match results
        case NoFields => Success([])
        case WithoutGenres => Failure(NilReceiver)
        case WithGenres(genres) => Success(seq(|genres|, k requires 0 <= k < |genres| => genres[k].name))
  }

  // ---------------------------------------------------------------- metacritic link

  /** metacritic: the href of the page's metalink when there is exactly one, nil for none
      and nil for several. */
  function Metacritic(metalinks: seq<string>): (r: Option<string>)
    ensures r.Some? <==> |metalinks| == 1
    ensures r.Some? ==> metalinks == [r.value]
  {
    if |metalinks| == 1 then Some(metalinks[0])
    else if |metalinks| == 0 then None
    else None
  }
}

=== FILE: game_linker.dfy ===
/** The GameLinker object: a one-entry batch buffer, the staleness cache loaded at start-up,
    the store it writes, the detail requests it has sent and the time it has slept. The
    provider's replies and the clock are parameters of the calls. */
module Linker {
  import opened Common
  import opened Provider
  import Store
  import opened Details

  /** How a fetch ended. `Idle`: the buffer was empty. `Completed`: every appid was
      processed. `Dropped`: the reply was not JSON and the batch was skipped.
      `StillRetrying`: every reply so far was empty, so the source is still retrying.
      `Raised`: an exception left the call. */
  datatype Outcome = Idle | Completed | Dropped | StillRetrying | Raised

  /** Whether the call returns to its caller. */
  predicate Returns(o: Outcome)
  {
    o == Idle || o == Completed || o == Dropped
  }

  /** The value of days_since_updated: infinite, or a number of days. */
  datatype Staleness = Infinite | Days(days: real)

  /** The flush size: add_game flushes once the buffer holds this many pairs. */
  const BatchSize := 1

  /** The number of leading empty replies: the attempts after which the source sleeps and
      asks again. */
  function FirstAnswer(responses: seq<DetailResponse>): (i: nat)
    ensures i <= |responses|
    ensures forall k :: 0 <= k < i ==> responses[k].NoBody?
    ensures i < |responses| ==> !responses[i].NoBody?
  {
    if responses == [] then 0
    else if responses[0].NoBody? then 1 + FirstAnswer(responses[1..])
    else 0
  }

  /** The number of requests sent: one per empty reply, plus the one that was answered. */
  function Attempts(responses: seq<DetailResponse>): nat
  {
    if FirstAnswer(responses) < |responses| then FirstAnswer(responses) + 1 else |responses|
  }

  function Repeat(key: string, n: nat): (r: seq<string>)
    ensures |r| == n && forall k :: 0 <= k < n ==> r[k] == key
  {
    seq(n, _ => key)
  }

  /** What get_app_details does to the store, the outcome and the seconds slept. */
  datatype Fetch = Fetch(outcome: Outcome, db: Store.Tables, pauses: nat)

  /** get_app_details for a batch, given the replies to its successive attempts: sleep 5
      seconds after each empty reply; drop the batch on a reply that is not JSON;
      otherwise process every appid in order, sleeping 2 seconds after each unresolved one. */
  function FetchBatch(db: Store.Tables, batch: seq<(AppId, string)>, responses: seq<DetailResponse>, now: Time): (r: Fetch)
    ensures r.outcome != Idle
    ensures r.outcome == StillRetrying <==> forall k :: 0 <= k < |responses| ==> responses[k].NoBody?
    ensures r.outcome == Dropped <==>
      FirstAnswer(responses) < |responses| && responses[FirstAnswer(responses)].Unparsable?
    ensures r.outcome == StillRetrying || r.outcome == Dropped ==> r.db == db
    ensures 5 * FirstAnswer(responses) <= r.pauses <= 5 * FirstAnswer(responses) + 2 * |batch|
    ensures Store.Valid(db) ==> Store.Valid(r.db)
    ensures db.games.Keys <= r.db.games.Keys
  {
    var i := FirstAnswer(responses);
    if i == |responses| then Fetch(StillRetrying, db, 5 * i)
    else if responses[i].Parsed? then
      var entries := responses[i].entries;
      var p := ApplyBatch(Progress(db, 0, false), batch, entries, now);
      ApplyBatchTouchesOnlyItsRows(Progress(db, 0, false), batch, entries, now);
      Fetch(if p.crashed then Raised else Completed, p.db, 5 * i + 2 * p.unresolved)
    else
      Fetch(Dropped, db, 5 * i)
  }

  /** A reply that is not JSON costs the batch and nothing else: no store write happens. */
  lemma UnparsableWritesNothing(db: Store.Tables, batch: seq<(AppId, string)>, responses: seq<DetailResponse>, now: Time)
    requires FirstAnswer(responses) < |responses| && responses[FirstAnswer(responses)].Unparsable?
    ensures FetchBatch(db, batch, responses, now).db == db
    ensures FetchBatch(db, batch, responses, now).outcome == Dropped
  {
  }

  /** days_since_updated's value, read from the cache alone. */
  function StalenessOf(cache: map<AppId, Option<Time>>, appid: AppId, now: Time): (r: Staleness)
    ensures r.Infinite? <==> appid !in cache || cache[appid].None?
    ensures r.Days? ==> r.days * 86400.0 == (now - cache[appid].value) as real
  {
    if appid !in cache then Infinite
    else match cache[appid]
      case None => Infinite
      case Some(last) => Days((now - last) as real / 86400.0)
  }

  class GameLinker {
    /** `@buffer`: the (appid, name) pairs waiting for a flush. */
    var buffer: seq<(AppId, string)>
    /** `@update_hash`: appid to last update time, as loaded at construction. */
    var updateHash: map<AppId, Option<Time>>
    /** The tables behind `@db`. */
    var db: Store.Tables
    /** The `appids=` key of every detail request sent, in order. */
    var requests: seq<string>
    /** Seconds spent in `sleep`. */
    var slept: nat

    /** Every cached appid has a row (rows are never deleted), and the tables keep their
        own invariant. */
    ghost predicate Valid()
      reads this
    {
      updateHash.Keys <= db.games.Keys && Store.Valid(db)
    }

    /** initialize: load appid and updated_datetime of every game row into the cache. */
    constructor (initial: Store.Tables)
      requires Store.Valid(initial)
      ensures Valid()
      ensures db == initial && buffer == [] && requests == [] && slept == 0
      ensures updateHash.Keys == initial.games.Keys
      ensures forall a :: a in updateHash ==> updateHash[a] == initial.games[a].updated
    {
      buffer := [];
      db := initial;
      updateHash := map a | a in initial.games :: initial.games[a].updated;
      requests := [];
      slept := 0;
    }

    /** add_game: buffer the pair and flush, since the buffer then holds at least one. */
    method AddGame(appid: AppId, name: string, responses: seq<DetailResponse>, now: Time)
      returns (outcome: Outcome)
      requires Valid()
      modifies this
      ensures Valid() && updateHash == old(updateHash)
      ensures var batch := old(buffer) + [(appid, name)];
        var f := FetchBatch(old(db), batch, responses, now);
        && outcome == f.outcome && db == f.db
        && requests == old(requests) + Repeat(RequestKey(batch), Attempts(responses))
        && (Returns(outcome) ==> buffer == [] && slept == old(slept) + f.pauses + 1)
        && (!Returns(outcome) ==> buffer == batch && slept == old(slept) + f.pauses)
    {
      buffer := buffer + [(appid, name)];
      outcome := Idle;
      if |buffer| >= BatchSize {
        outcome := Flush(responses, now);
      }
    }

    /** flush: fetch the buffered batch unless it is empty, then clear the buffer and sleep
        a second. An exception (or an endless retry) leaves before the buffer is cleared. */
    method Flush(responses: seq<DetailResponse>, now: Time) returns (outcome: Outcome)
      requires Valid()
      modifies this
      ensures Valid() && updateHash == old(updateHash)
      ensures old(buffer) == [] ==>
        outcome == Idle && buffer == [] && db == old(db) && requests == old(requests)
        && slept == old(slept) + 1
      ensures old(buffer) != [] ==>
        var f := FetchBatch(old(db), old(buffer), responses, now);
        && outcome == f.outcome && db == f.db
        && requests == old(requests) + Repeat(RequestKey(old(buffer)), Attempts(responses))
        && (Returns(outcome) ==> buffer == [] && slept == old(slept) + f.pauses + 1)
        && (!Returns(outcome) ==> buffer == old(buffer) && slept == old(slept) + f.pauses)
    {
      outcome := Idle;
      if |buffer| != 0 {
        outcome := GetAppDetails(buffer, responses, now);
        if !Returns(outcome) {
          return;
        }
      }
      buffer := [];
      slept := slept + 1;
    }

    /** get_app_details: send the batch's key until a reply has a body, then classify it. */
    method GetAppDetails(batch: seq<(AppId, string)>, responses: seq<DetailResponse>, now: Time)
      returns (outcome: Outcome)
      requires Valid()
      modifies this
      ensures Valid()
      ensures buffer == old(buffer) && updateHash == old(updateHash)
      ensures var f := FetchBatch(old(db), batch, responses, now);
        && outcome == f.outcome && db == f.db && slept == old(slept) + f.pauses
      ensures requests == old(requests) + Repeat(RequestKey(batch), Attempts(responses))
    {
      var key := RequestKey(batch);
      var i := 0;
      while i < |responses| && responses[i].NoBody?
        invariant 0 <= i <= |responses|
        invariant forall k :: 0 <= k < i ==> responses[k].NoBody?
        invariant requests == old(requests) + Repeat(key, i)
        invariant slept == old(slept) + 5 * i
        invariant db == old(db) && buffer == old(buffer) && updateHash == old(updateHash)
      {
        requests := requests + [key];
        slept := slept + 5;
        i := i + 1;
      }
      assert i == FirstAnswer(responses);
      if i == |responses| {
        return StillRetrying;
      }
      requests := requests + [key];
      assert requests == old(requests) + Repeat(key, i + 1);
      match responses[i]
      case Unparsable =>
        return Dropped;
      case Parsed(entries) =>
        ghost var goal := ApplyBatch(Progress(db, 0, false), batch, entries, now);
        ghost var unresolved: nat := 0;
        for j := 0 to |batch|
          invariant Valid()
          invariant ApplyBatch(Progress(db, unresolved, false), batch[j..], entries, now) == goal
          invariant slept == old(slept) + 5 * i + 2 * unresolved
          invariant buffer == old(buffer) && updateHash == old(updateHash)
          invariant requests == old(requests) + Repeat(key, i + 1)
        {
          assert batch[j..][0] == batch[j] && batch[j..][1..] == batch[j + 1..];
          var (appid, name) := batch[j];
          ghost var next := ApplyEntry(Progress(db, unresolved, false), appid, name, entries, now);
          var crashed := ProcessEntry(appid, name, entries, now, unresolved);
          if crashed {
            return Raised;
          }
          unresolved := next.unresolved;
        }
        return Completed;
    }

    /** The body of get_app_details' loop over the batch, for one appid: update the game and
        link its genres, or record the appid as 'unknown' and sleep 2 seconds. Answers true
        when the source raises. */
    method ProcessEntry(appid: AppId, name: string, entries: map<AppId, AppEntry>, now: Time,
                        ghost unresolved: nat)
      returns (crashed: bool)
      requires Valid()
      modifies this
      ensures Valid()
      ensures var q := ApplyEntry(Progress(old(db), unresolved, false), appid, name, entries, now);
        && crashed == q.crashed
        && db == q.db && slept == old(slept) + 2 * (q.unresolved - unresolved)
      ensures buffer == old(buffer) && updateHash == old(updateHash) && requests == old(requests)
    {
      if appid !in entries {
        return true;
      }
      var entry := entries[appid];
      if entry.success {
        if entry.data.None? {
          return true;
        }
        var data := entry.data.value;
        UpdateGame(appid, data, now);
        if data.genres.Some? {
          LinkAll(data.steamAppid, data.genres.value);
        }
      } else {
        UpdateApp(appid, name, "unknown", now);
        slept := slept + 2;
      }
      crashed := false;
    }

    /** The inner loop of get_app_details: add_genre for each description in order. */
    method LinkAll(appid: AppId, genres: seq<GenreDesc>)
      requires Valid()
      modifies this
      ensures Valid() && db == LinkGenres(old(db), appid, genres)
      ensures buffer == old(buffer) && updateHash == old(updateHash)
      ensures requests == old(requests) && slept == old(slept)
    {
      for k := 0 to |genres|
        invariant Valid()
        invariant LinkGenres(db, appid, genres[k..]) == LinkGenres(old(db), appid, genres)
        invariant buffer == old(buffer) && updateHash == old(updateHash)
        invariant requests == old(requests) && slept == old(slept)
      {
        assert genres[k..][0] == genres[k] && genres[k..][1..] == genres[k + 1..];
        AddGenre(appid, genres[k].description);
      }
    }

    /** days_since_updated: an appid missing from the cache is first inserted as a bare
        row (the cache itself is not updated); the answer then comes from the cache. */
    method DaysSinceUpdated(appid: AppId, now: Time) returns (r: Result<Staleness, Store.DbError>)
      requires Valid()
      modifies this
      ensures Valid()
      ensures buffer == old(buffer) && updateHash == old(updateHash)
      ensures requests == old(requests) && slept == old(slept)
      ensures appid in updateHash ==> db == old(db) && r == Success(StalenessOf(updateHash, appid, now))
      ensures appid !in updateHash && appid !in old(db).games ==>
        db.games == old(db).games[appid := Store.BareRow] && r == Success(Infinite)
        && db.genres == old(db).genres && db.mappings == old(db).mappings
      ensures appid !in updateHash && appid in old(db).games ==>
        db == old(db) && r == Failure(Store.DuplicateKey)
      ensures appid in db.games
    {
      if appid !in updateHash {
        var e := InsertApp(appid);
        if e.Failure? {
          return Failure(e.error);
        }
      }
      r := Success(StalenessOf(updateHash, appid, now));
    }

    /** insert_app. */
    method InsertApp(appid: AppId) returns (e: Result<(), Store.DbError>)
      requires Valid()
      modifies this
      ensures Valid()
      ensures buffer == old(buffer) && updateHash == old(updateHash)
      ensures requests == old(requests) && slept == old(slept)
      ensures e.Failure? <==> Store.InsertApp(old(db), appid).Failure?
      ensures e.Failure? ==> db == old(db) && e.error == Store.InsertApp(old(db), appid).error
      ensures e.Success? ==> db == Store.InsertApp(old(db), appid).value
    {
      var inserted := Store.InsertApp(db, appid);
      match inserted
      case Failure(err) =>
        e := Failure(err);
      case Success(t) =>
        db := t;
        e := Success(());
    }

    /** update_game. */
    method UpdateGame(appid: AppId, data: AppData, now: Time)
      requires Valid()
      modifies this
      ensures Valid() && db == Store.UpdateGame(old(db), appid, data, now)
      ensures buffer == old(buffer) && updateHash == old(updateHash)
      ensures requests == old(requests) && slept == old(slept)
    {
      db := Store.UpdateGame(db, appid, data, now);
    }

    /** update_app. */
    method UpdateApp(appid: AppId, name: string, appType: string, now: Time)
      requires Valid()
      modifies this
      ensures Valid() && db == Store.UpdateApp(old(db), appid, name, appType, now)
      ensures buffer == old(buffer) && updateHash == old(updateHash)
      ensures requests == old(requests) && slept == old(slept)
    {
      db := Store.UpdateApp(db, appid, name, appType, now);
    }

    /** add_genre with lines 163 and 165 corrected (the new id is the inserted row's, the
        existing id is the row's `id`): look the genre up, insert it and take the new id when
        it is missing, then insert the mapping and swallow a duplicate-key error. As written,
        the method raises on a new genre and links nothing (Store.AddGenreAsWritten). */
    method AddGenre(appid: AppId, genre: string)
      requires Valid()
      modifies this
      ensures Valid() && db == Store.AddGenre(old(db), appid, genre)
      ensures buffer == old(buffer) && updateHash == old(updateHash)
      ensures requests == old(requests) && slept == old(slept)
    {
      var genreId: Store.GenreId;
      match Store.FindGenre(db.genres, genre) {
        case Some(id) =>
          genreId := id;
        case None =>
          genreId := |db.genres|;
          db := db.(genres := db.genres + [genre]);
      }
      var inserted := Store.InsertMapping(db, appid, genreId);
      if inserted.Success? {
        db := inserted.value;
      }
    }
  }

  /** A client of the class: the first lookup of an appid that is neither cached nor stored
      inserts its bare row and answers infinity; since the cache is not updated, a second
      lookup of the same appid inserts again and hits the duplicate key. */
  method RepeatedLookupOfNewApp(now: Time)
    returns (first: Result<Staleness, Store.DbError>, second: Result<Staleness, Store.DbError>)
    ensures first == Success(Infinite)
    ensures second == Failure(Store.DuplicateKey)
  {
    var linker := new GameLinker(Store.Tables(map[], [], {}));
    first := linker.DaysSinceUpdated(7, now);
    assert linker.db.games == map[7 := Store.BareRow];
    second := linker.DaysSinceUpdated(7, now);
  }
}

=== FILE: matching.dfy ===
/** Candidate matching against the secondary providers: every candidate title is scored by
    its edit distance to the wanted name over the longer of the two lengths, and the
    candidates are sorted by ascending score, so the best match comes first. */
module Matching {
  import opened Common
  import opened Provider
  import opened EditDistance

  /** A candidate together with the score written into it. */
  datatype Scored<T> = Scored(item: T, score: real)

  /** A Metacritic hit: `[url, title, score]` without the score. */
  datatype McHit = McHit(url: string, title: string)

  /** Normalized distance: 0 for an exact match, never above 1. Two empty strings would
      divide zero by zero, so at least one of them must be non-empty. */
  function Score(name: string, title: string): (r: real)
    requires |name| > 0 || |title| > 0
    ensures 0.0 <= r <= 1.0
    ensures r == 0.0 <==> name == title
  {
    DistanceAtMostLonger(name, title);
    DistanceZeroIff(name, title);
    RatioBounds(Distance(name, title) as real, Max(|name|, |title|) as real);
    Distance(name, title) as real / Max(|name|, |title|) as real
  }

  lemma RatioBounds(d: real, m: real)
    requires 0.0 <= d <= m && m > 0.0
    ensures 0.0 <= d / m <= 1.0
    ensures d / m == 0.0 <==> d == 0.0
  {
    var q := d / m;
    assert q * m == d;
  }

  ghost predicate SortedByScore<T>(s: seq<Scored<T>>)
  {
    forall i, j :: 0 <= i < j < |s| ==> s[i].score <= s[j].score
  }

  /** The in-place sort by score (`sort!` with `a['score'] <=> b['score']`), as an
      insertion sort. */
  method SortByScore<T>(a: array<Scored<T>>)
    modifies a
    ensures SortedByScore(a[..])
    ensures multiset(a[..]) == multiset(old(a[..]))
  {
    var i := 0;
    while i < a.Length
      invariant 0 <= i <= a.Length
      invariant SortedByScore(a[..i])
      invariant multiset(a[..]) == multiset(old(a[..]))
    {
      InsertLast(a, i);
      i := i + 1;
    }
  }

  /** One step of the insertion sort: `a[..i]` is sorted; move `a[i]` left to its place. */
  method InsertLast<T>(a: array<Scored<T>>, i: nat)
    requires i < a.Length
    requires SortedByScore(a[..i])
    modifies a
    ensures SortedByScore(a[..i + 1])
    ensures multiset(a[..]) == multiset(old(a[..]))
  {
    var j := i;
    while j > 0 && a[j - 1].score > a[j].score
      invariant 0 <= j <= i
      invariant forall k, l :: 0 <= k < l <= i && k != j && l != j ==> a[k].score <= a[l].score
      invariant forall l :: j < l <= i ==> a[j].score < a[l].score
      invariant multiset(a[..]) == multiset(old(a[..]))
    {
      Swap(a, j - 1, j);
      j := j - 1;
    }
  }

  method Swap<T>(a: array<T>, i: nat, j: nat)
    requires i < j < a.Length
    modifies a
    ensures a[i] == old(a[j]) && a[j] == old(a[i])
    ensures forall k :: 0 <= k < a.Length && k != i && k != j ==> a[k] == old(a[k])
    ensures multiset(a[..]) == multiset(old(a[..]))
  {
    a[i], a[j] := a[j], a[i];
  }

  /** A sorted copy of a sequence, through an array sorted in place. */
  method SortedCopy<T>(s: seq<Scored<T>>) returns (r: seq<Scored<T>>)
    ensures SortedByScore(r)
    ensures multiset(r) == multiset(s)
  {
    var a := new Scored<T>[|s|](k requires 0 <= k < |s| => s[k]);
    assert a[..] == s;
    SortByScore(a);
    r := a[..];
  }

  // ---------------------------------------------------------------- Giant Bomb search

  /** Every candidate can be scored: the wanted name or each candidate title is non-empty. */
  predicate Scorable(name: string, games: seq<GbGame>)
  {
    |name| > 0 || forall k :: 0 <= k < |games| ==> |games[k].name| > 0
  }

  /** The candidates with their scores written in, in the provider's order. */
  function ScoreAll(name: string, games: seq<GbGame>): (r: seq<Scored<GbGame>>)
    requires Scorable(name, games)
    ensures |r| == |games|
    ensures forall k :: 0 <= k < |r| ==>
      && r[k].item == games[k]
      && 0.0 <= r[k].score <= 1.0
      && (r[k].score == 0.0 <==> games[k].name == name)
  {
    seq(|games|, k requires 0 <= k < |games| => Scored(games[k], Score(name, games[k].name)))
  }

  /** search_giantbomb: raises unless the reply parses and its status is "OK", raises on
      an empty name against an empty title, and otherwise returns every candidate, scored,
      sorted by ascending score. */
  method SearchGiantbomb(name: string, response: SearchResponse)
    returns (r: Result<seq<Scored<GbGame>>, ProviderError>)
    ensures response.SearchUnparsable? ==> r == Failure(Malformed)
    ensures response.SearchParsed? && response.status != "OK" ==>
      r == Failure(BadStatus(response.status))
    ensures response.SearchParsed? && response.status == "OK" && !Scorable(name, response.results) ==>
      r == Failure(ZeroDivision)
    ensures response.SearchParsed? && response.status == "OK" && Scorable(name, response.results) ==>
      && r.Success?
      && SortedByScore(r.value)
      && multiset(r.value) == multiset(ScoreAll(name, response.results))
    ensures r.Success? ==> forall x :: x in r.value ==>
      0.0 <= x.score <= 1.0 && (x.score == 0.0 <==> x.item.name == name)
  {
    match response
    case SearchUnparsable =>
      return Failure(Malformed);
    case SearchParsed(status, games) =>
      if status != "OK" {
        return Failure(BadStatus(status));
      }
      var a := new Scored<GbGame>[|games|](k requires 0 <= k < |games| => Scored(games[k], 0.0));
      for i := 0 to a.Length
        invariant forall k :: 0 <= k < i ==> |name| > 0 || |games[k].name| > 0
        invariant forall k :: 0 <= k < i ==> a[k] == Scored(games[k], Score(name, games[k].name))
        invariant forall k :: i <= k < a.Length ==> a[k].item == games[k]
      {
        var title := a[i].item.name;
        if |name| == 0 && |title| == 0 {
          return Failure(ZeroDivision);
        }
        a[i] := a[i].(score := Score(name, title));
      }
      ghost var scored := ScoreAll(name, games);
      assert a[..] == scored;
      SortByScore(a);
      r := Success(a[..]);
      forall x | x in r.value
        ensures 0.0 <= x.score <= 1.0 && (x.score == 0.0 <==> x.item.name == name)
      {
        assert x in multiset(scored);
        var k :| 0 <= k < |scored| && scored[k] == x;
      }
  }

  // ---------------------------------------------------------------- Metacritic search

  /** The query name: colons removed, hyphens made spaces, spaces made `+`. */
  function CleanName(name: string): (r: string)
    ensures ':' !in r && '-' !in r && ' ' !in r
  {
    ReplaceChar(ReplaceChar(RemoveChar(name, ':'), '-', ' '), ' ', '+')
  }

  function RemoveChar(s: string, c: char): (r: string)
    ensures c !in r
    ensures forall x :: x != c ==> (x in r <==> x in s)
  {
    if s == [] then []
    else (if s[0] == c then [] else [s[0]]) + RemoveChar(s[1..], c)
  }

  function ReplaceChar(s: string, from: char, to: char): (r: string)
    ensures |r| == |s|
    ensures forall k :: 0 <= k < |s| ==> r[k] == if s[k] == from then to else s[k]
  {
    if s == [] then []
    else [if s[0] == from then to else s[0]] + ReplaceChar(s[1..], from, to)
  }

  /** An independent one-pass reading of the cleaning: drop `:`, turn `-` and ` ` into `+`. */
  function CleanOnePass(s: string): string
  {
    if s == [] then []
    else
      (if s[0] == ':' then [] else [if s[0] == '-' || s[0] == ' ' then '+' else s[0]])
      + CleanOnePass(s[1..])
  }

  lemma ReplaceCharAppend(x: string, y: string, from: char, to: char)
    ensures ReplaceChar(x + y, from, to) == ReplaceChar(x, from, to) + ReplaceChar(y, from, to)
  {
    var l, r := ReplaceChar(x + y, from, to), ReplaceChar(x, from, to) + ReplaceChar(y, from, to);
    assert |l| == |r|;
    forall k | 0 <= k < |l| ensures l[k] == r[k] {
      if k < |x| { assert (x + y)[k] == x[k]; } else { assert (x + y)[k] == y[k - |x|]; }
    }
  }

  /** The gsub chain and the one-pass reading agree on every name. */
  lemma {:induction false} CleanNameIsOnePass(s: string)
    ensures CleanName(s) == CleanOnePass(s)
    decreases |s|
  {
    if s != [] {
      var head := if s[0] == ':' then [] else [s[0]];
      assert RemoveChar(s, ':') == head + RemoveChar(s[1..], ':');
      ReplaceCharAppend(head, RemoveChar(s[1..], ':'), '-', ' ');
      ReplaceCharAppend(ReplaceChar(head, '-', ' '), ReplaceChar(RemoveChar(s[1..], ':'), '-', ' '), ' ', '+');
      CleanNameIsOnePass(s[1..]);
    }
  }

  /** Whitespace as Ruby's `lstrip` and `rstrip` remove it. */
  predicate IsSpace(c: char)
  {
    c == ' ' || c == '\t' || c == '\n' || c == '\U{0B}' || c == '\U{0C}' || c == '\r'
  }

  /** `lstrip`: the suffix left after dropping leading whitespace. */
  function LStrip(s: string): (r: string)
    ensures |r| <= |s| && r == s[|s| - |r|..]
    ensures forall k :: 0 <= k < |s| - |r| ==> IsSpace(s[k])
    ensures r == [] || !IsSpace(r[0])
  {
    if |s| > 0 && IsSpace(s[0]) then LStrip(s[1..]) else s
  }

  /** `rstrip`: the prefix left after dropping trailing whitespace. */
  function RStrip(s: string): (r: string)
    ensures |r| <= |s| && r == s[..|r|]
    ensures forall k :: |r| <= k < |s| ==> IsSpace(s[k])
    ensures r == [] || !IsSpace(r[|r| - 1])
  {
    if |s| > 0 && IsSpace(s[|s| - 1]) then RStrip(s[..|s| - 1]) else s
  }

  function Strip(s: string): string
  {
    RStrip(LStrip(s))
  }

  predicate IsPc(res: McResult)
  {
    Strip(res.platform) == "PC"
  }

  /** A result can be scored against the wanted name: it is not a PC result, or the name
      or its stripped title is non-empty. Only an empty name against an empty PC title
      divides zero by zero. */
  predicate PcScorable(name: string, res: McResult)
  {
    |name| > 0 || !IsPc(res) || |Strip(res.title)| > 0
  }

  predicate AllPcScorable(name: string, results: seq<McResult>)
  {
    forall k :: 0 <= k < |results| ==> PcScorable(name, results[k])
  }

  /** The block of `results.map`: nil for a result on another platform, otherwise the
      result's url, stripped title and score. */
  function MapResult(name: string, res: McResult): (r: Option<Scored<McHit>>)
    requires PcScorable(name, res)
    ensures r.Some? <==> IsPc(res)
    ensures r.Some? ==> r.value.item == McHit(res.href, Strip(res.title))
    ensures r.Some? ==> 0.0 <= r.value.score <= 1.0
    ensures r.Some? ==> (r.value.score == 0.0 <==> Strip(res.title) == name)
  {
    if !IsPc(res) then None
    else
      var title := Strip(res.title);
      Some(Scored(McHit(res.href, title), Score(name, title)))
  }

  /** An empty wanted name is as far as possible from every non-empty title: such a PC
      result is scored 1. */
  lemma {:induction false} EmptyNameScoresOne(res: McResult)
    requires IsPc(res) && |Strip(res.title)| > 0
    ensures MapResult("", res) == Some(Scored(McHit(res.href, Strip(res.title)), 1.0))
  {
    EmptyNameScore(Strip(res.title));
  }

  lemma EmptyNameScore(title: string)
    requires |title| > 0
    ensures Score("", title) == 1.0
  {
    assert Distance("", title) == |title|;
    assert Max(0, |title|) == |title|;
    var m := |title| as real;
    assert m / m == 1.0;
  }

  /** `results.map`: the PC results become hits, in place, and every other result nil. */
  function MapResults(name: string, results: seq<McResult>): (r: seq<Option<Scored<McHit>>>)
    requires AllPcScorable(name, results)
    ensures |r| == |results|
    ensures forall k :: 0 <= k < |r| ==> (r[k].Some? <==> IsPc(results[k]))
    ensures forall k :: 0 <= k < |r| && r[k].Some? ==>
      && r[k].value.item == McHit(results[k].href, Strip(results[k].title))
      && 0.0 <= r[k].value.score <= 1.0
      && (r[k].value.score == 0.0 <==> r[k].value.item.title == name)
  {
    seq(|results|, k requires 0 <= k < |results| => MapResult(name, results[k]))
  }

  /** A hit survives the filter exactly when it comes from a PC result. */
  lemma PcHitsOnly(name: string, results: seq<McResult>, x: Scored<McHit>)
    requires AllPcScorable(name, results)
    ensures x in Compact(MapResults(name, results)) <==>
      exists k :: 0 <= k < |results| && IsPc(results[k]) && MapResult(name, results[k]) == Some(x)
  {
    var m := MapResults(name, results);
    if x in Compact(m) {
      var k :| 0 <= k < |m| && m[k] == Some(x);
    }
  }

  /** search_metacritic with the evidently intended `compact`: the PC results, scored,
      sorted by ascending score. An empty name against a PC result whose title strips to
      nothing divides zero by zero in floating point, so that case is excluded. */
  method SearchMetacritic(name: string, results: seq<McResult>) returns (titles: seq<Scored<McHit>>)
    requires AllPcScorable(name, results)
    ensures SortedByScore(titles)
    ensures multiset(titles) == multiset(Compact(MapResults(name, results)))
    ensures forall x :: x in titles ==>
      0.0 <= x.score <= 1.0 && (x.score == 0.0 <==> x.item.title == name)
  {
    titles := SortedCopy(Compact(MapResults(name, results)));
    forall x | x in titles ensures 0.0 <= x.score <= 1.0 && (x.score == 0.0 <==> x.item.title == name) {
      assert x in multiset(Compact(MapResults(name, results)));
      PcHitsOnly(name, results, x);
    }
  }

  /** search_metacritic as written: `compact!` returns nil when no result was dropped, and
      `nil.sort!` raises. So a search whose results are all PC, or that has no results at
      all, raises instead of returning its hits. */
  method SearchMetacriticAsWritten(name: string, results: seq<McResult>)
    returns (r: Result<seq<Scored<McHit>>, ProviderError>)
    requires AllPcScorable(name, results)
    ensures r.Failure? <==> forall k :: 0 <= k < |results| ==> IsPc(results[k])
    ensures r.Failure? ==> r.error == NilReceiver
    ensures r.Success? ==>
      && SortedByScore(r.value)
      && multiset(r.value) == multiset(Compact(MapResults(name, results)))
      && forall x :: x in r.value ==> 0.0 <= x.score <= 1.0 && (x.score == 0.0 <==> x.item.title == name)
  {
    var compacted := CompactInPlace(MapResults(name, results));
    if compacted.None? {
      return Failure(NilReceiver);
    }
    var sorted := SortedCopy(compacted.value);
    forall x | x in sorted ensures 0.0 <= x.score <= 1.0 && (x.score == 0.0 <==> x.item.title == name) {
      assert x in multiset(compacted.value);
      PcHitsOnly(name, results, x);
    }
    r := Success(sorted);
  }

  /** Finding: a search returning one PC hit raises as written, while the intended
      search returns that hit with score 0. */
  lemma AllPcSearchRaises()
    ensures var results := [McResult(" PC ", "/game/pc/portal", "Portal")];
      && CompactInPlace(MapResults("Portal", results)) == None
      && Compact(MapResults("Portal", results)) == [Scored(McHit("/game/pc/portal", "Portal"), 0.0)]
  {
    var results := [McResult(" PC ", "/game/pc/portal", "Portal")];
    assert LStrip(" PC ") == "PC ";
    assert RStrip("PC ") == "PC";
    assert Strip("Portal") == "Portal";
    var m := MapResults("Portal", results);
    assert m[0] == Some(Scored(McHit("/game/pc/portal", "Portal"), Score("Portal", "Portal")));
    assert m[1..] == [];
  }
}

=== FILE: provider.dfy ===
/** What the providers answer, already decoded from JSON or HTML. Transport and parsing are
    outside the model: a response arrives either as decoded values or as "unparsable". */
module Provider {
  import opened Common

  /** The `metacritic` object of a detail payload; its `url` key may be missing. */
  datatype Metacritic = Metacritic(url: Option<string>)

  /** One entry of a payload's `genres` list. */
  datatype GenreDesc = GenreDesc(description: string)

  /** The `data` object the detail provider returns for a resolved appid. */
  datatype AppData = AppData(
    steamAppid: AppId,
    name: string,
    appType: string,
    metacritic: Option<Metacritic>,
    genres: Option<seq<GenreDesc>>)

  /** The per-appid object of a detail response: the `success` flag and the optional `data`. */
  datatype AppEntry = AppEntry(success: bool, data: Option<AppData>)

  /** One reply of the detail provider: no body at all (nil), a body that is not JSON, or a
      decoded object keyed by appid. */
  datatype DetailResponse =
    | NoBody
    | Unparsable
    | Parsed(entries: map<AppId, AppEntry>)

  /** A candidate of a Giant Bomb name search (`id`, `name`, `site_detail_url`). */
  datatype GbGame = GbGame(id: int, name: string, url: string)

  /** A Giant Bomb search reply: not JSON, or its `error` status and `results` list. */
  datatype SearchResponse =
    | SearchUnparsable
    | SearchParsed(status: string, results: seq<GbGame>)

  /** An entry of a Giant Bomb game's `genres` list. */
  datatype GbGenre = GbGenre(name: string)

  /** The `results` object of a Giant Bomb game reply asked for `field_list=genres`: empty,
      holding a `genres` list, or non-empty without one. */
  datatype GbGameFields =
    | NoFields
    | WithGenres(genres: seq<GbGenre>)
    | WithoutGenres

  /** A Giant Bomb game reply: not JSON, or its `error` status and `results` object. */
  datatype GameResponse =
    | GameUnparsable
    | GameParsed(status: string, results: GbGameFields)

  /** One `li` of a Metacritic search page: the text of its `.platform` element and the
      href and text of its product-title link, as the page has them (unstripped). */
  datatype McResult = McResult(platform: string, href: string, title: string)

  /** An `a` element: its `href` attribute and its text. */
  datatype Link = Link(href: string, content: string)

  /** Errors raised by the lookups against the secondary providers. */
  datatype ProviderError =
    | Malformed                  // JSON::ParserError
    | BadStatus(status: string)  // the `error` field was not "OK"
    | ZeroDivision               // 0 / 0 in the rational score
    | NilReceiver                // a method called on nil (NoMethodError)

  /** True when the payload carries a metacritic url of positive length, the condition
      under which update_game writes the metacritic column. */
  predicate HasMetacriticUrl(d: AppData)
  {
    d.metacritic.Some? && d.metacritic.value.url.Some? && |d.metacritic.value.url.value| > 0
  }
}

=== FILE: store.dfy ===
/** The three tables the linker writes (games, genres, genre_mappings) and the effect of each
    of its store operations on them. A statement that MySQL rejects is a `Failure`; the
    statement texts, escaping and the connection are outside the model. */
module Store {
  import opened Common
  import opened Provider

  /** A row of `games`; every column but the key may be NULL. */
  datatype GameRow = GameRow(
    title: Option<string>,
    appType: Option<string>,
    metacritic: Option<string>,
    updated: Option<Time>)

  /** The row `insert into games (appid) values (...)` creates. */
  const BareRow := GameRow(None, None, None, None)

  /** A genre's id is its position in `genres`: ids are handed out in insertion order. */
  type GenreId = nat

  datatype Tables = Tables(
    games: map<AppId, GameRow>,
    genres: seq<string>,
    mappings: set<(AppId, GenreId)>)

  datatype DbError = DuplicateKey

  /** Genre names are unique and every mapping names an existing genre. */
  ghost predicate Valid(t: Tables)
  {
    && (forall i, j :: 0 <= i < j < |t.genres| ==> t.genres[i] != t.genres[j])
    && (forall m :: m in t.mappings ==> m.1 < |t.genres|)
  }

  /** `select id from genres where name = ...`: the first row carrying that name. */
  function FindGenre(genres: seq<string>, name: string): (r: Option<GenreId>)
    ensures r.None? <==> name !in genres
    ensures r.Some? ==> r.value < |genres| && genres[r.value] == name
    ensures r.Some? ==> forall k :: 0 <= k < r.value ==> genres[k] != name
  {
    if |genres| == 0 then None
    else if genres[0] == name then Some(0)
    else
      match FindGenre(genres[1..], name)
      case None => None
      case Some(k) => Some(k + 1)
  }

  /** insert_app: a bare row for a new appid; MySQL refuses a second row for the same key. */
  function InsertApp(t: Tables, appid: AppId): (r: Result<Tables, DbError>)
    ensures r.Failure? <==> appid in t.games
    ensures r.Success? ==> r.value.games == t.games[appid := BareRow]
    ensures r.Success? ==> |r.value.games| == |t.games| + 1
    ensures r.Success? ==> r.value.genres == t.genres && r.value.mappings == t.mappings
  {
    if appid in t.games then Failure(DuplicateKey)
    else Success(t.(games := t.games[appid := BareRow]))
  }

  /** update_game: a plain UPDATE keyed on appid, so a missing row stays missing. Title,
      type and timestamp are always written; metacritic only for a non-empty url. */
  function UpdateGame(t: Tables, appid: AppId, d: AppData, now: Time): (r: Tables)
    ensures r.games.Keys == t.games.Keys
    ensures r.genres == t.genres && r.mappings == t.mappings
    ensures appid !in t.games ==> r == t
    ensures forall a :: a in t.games && a != appid ==> r.games[a] == t.games[a]
    ensures appid in t.games ==>
      && r.games[appid].title == Some(d.name)
      && r.games[appid].appType == Some(d.appType)
      && r.games[appid].updated == Some(now)
    ensures appid in t.games && HasMetacriticUrl(d) ==>
      r.games[appid].metacritic == d.metacritic.value.url
    ensures appid in t.games && !HasMetacriticUrl(d) ==>
      r.games[appid].metacritic == t.games[appid].metacritic
  {
    if appid !in t.games then t
    else
      var mc := if HasMetacriticUrl(d) then d.metacritic.value.url else t.games[appid].metacritic;
      t.(games := t.games[appid := GameRow(Some(d.name), Some(d.appType), mc, Some(now))])
  }

  /** update_app: INSERT ... ON DUPLICATE KEY UPDATE of title, type and timestamp; the
      metacritic column is never written, so an existing value survives. */
  function UpdateApp(t: Tables, appid: AppId, name: string, appType: string, now: Time): (r: Tables)
    ensures r.games.Keys == t.games.Keys + {appid}
    ensures r.genres == t.genres && r.mappings == t.mappings
    ensures forall a :: a in t.games && a != appid ==> r.games[a] == t.games[a]
    ensures r.games[appid].title == Some(name) && r.games[appid].appType == Some(appType)
    ensures r.games[appid].updated == Some(now)
    ensures r.games[appid].metacritic == if appid in t.games then t.games[appid].metacritic else None
  {
    var mc := if appid in t.games then t.games[appid].metacritic else None;
    t.(games := t.games[appid := GameRow(Some(name), Some(appType), mc, Some(now))])
  }

  /** `insert into genre_mappings`: MySQL refuses a pair that is already there. */
  function InsertMapping(t: Tables, appid: AppId, id: GenreId): (r: Result<Tables, DbError>)
    ensures r.Failure? <==> (appid, id) in t.mappings
    ensures r.Success? ==> r.value == t.(mappings := t.mappings + {(appid, id)})
  {
    if (appid, id) in t.mappings then Failure(DuplicateKey)
    else Success(t.(mappings := t.mappings + {(appid, id)}))
  }

  /** add_genre as intended: find the genre or insert it and take the new id, then insert
      the mapping, treating a duplicate pair as success. */
  function AddGenre(t: Tables, appid: AppId, name: string): (r: Tables)
    ensures r.games == t.games
    ensures name in t.genres ==> r.genres == t.genres
    ensures name !in t.genres ==> r.genres == t.genres + [name]
    ensures FindGenre(r.genres, name).Some?
    ensures r.mappings == t.mappings + {(appid, FindGenre(r.genres, name).value)}
    ensures Valid(t) ==> Valid(r)
  {
    var (t1, id) :=
      match FindGenre(t.genres, name)
      case Some(i) => (t, i)
      case None => (t.(genres := t.genres + [name]), |t.genres|);
    assert FindGenre(t1.genres, name) == Some(id);
    match InsertMapping(t1, appid, id)
    case Success(t2) => t2
    case Failure(_) => t1
  }

  /** add_genre as written. An existing genre yields `genre_id = nil` (the row was selected
      as `id` but read as `genre_id`), so the mapping statement is malformed and its error is
      swallowed. A new genre is inserted, and then the undefined `db` raises a NameError
      before any mapping is written. The boolean is true when the call raises. */
  function AddGenreAsWritten(t: Tables, appid: AppId, name: string): (r: (Tables, bool))
    ensures r.0.games == t.games && r.0.mappings == t.mappings
    ensures r.1 <==> name !in t.genres
    ensures r.0.genres == if name in t.genres then t.genres else t.genres + [name]
  {
    match FindGenre(t.genres, name)
    case Some(_) => (t, false)
    case None => (t.(genres := t.genres + [name]), true)
  }

  /** Linking the same genre to the same game twice has the effect of linking it once. */
  lemma AddGenreIdempotent(t: Tables, appid: AppId, name: string)
    ensures AddGenre(AddGenre(t, appid, name), appid, name) == AddGenre(t, appid, name)
  {
    var once := AddGenre(t, appid, name);
    assert name in once.genres;
  }

  /** Re-asserting a pair that is already linked changes nothing and raises nothing. */
  lemma RelinkIsNoOp(t: Tables, appid: AppId, name: string)
    requires name in t.genres
    requires (appid, FindGenre(t.genres, name).value) in t.mappings
    ensures AddGenre(t, appid, name) == t
  {
  }

  /** Writing the same payload twice leaves title, type and metacritic as one write does;
      only the timestamp moves to the later time. */
  lemma UpdateGameTwice(t: Tables, appid: AppId, d: AppData, t1: Time, t2: Time)
    ensures UpdateGame(UpdateGame(t, appid, d, t1), appid, d, t2) == UpdateGame(t, appid, d, t2)
  {
  }

  /** The same for update_app. */
  lemma UpdateAppTwice(t: Tables, appid: AppId, name: string, appType: string, t1: Time, t2: Time)
    ensures UpdateApp(UpdateApp(t, appid, name, appType, t1), appid, name, appType, t2)
         == UpdateApp(t, appid, name, appType, t2)
  {
  }

  /** Finding: for a genre already in the table, the code as written never links it,
      while the intended operation does. */
  lemma AsWrittenNeverLinksExisting()
    ensures var t := Tables(map[], ["Action"], {});
      && AddGenreAsWritten(t, 20, "Action") == (t, false)
      && AddGenre(t, 20, "Action").mappings == {(20, 0)}
  {
    var t := Tables(map[], ["Action"], {});
    assert FindGenre(t.genres, "Action") == Some(0);
  }

  /** Finding: for a new genre, the code as written inserts the genre and then raises,
      leaving it unlinked, while the intended operation links it. */
  lemma AsWrittenRaisesOnNewGenre()
    ensures var t := Tables(map[], [], {});
      && AddGenreAsWritten(t, 20, "RPG") == (Tables(map[], ["RPG"], {}), true)
      && AddGenre(t, 20, "RPG") == Tables(map[], ["RPG"], {(20, 0)})
  {
    var t := Tables(map[], [], {});
    assert t.genres + ["RPG"] == ["RPG"];
    assert FindGenre(["RPG"], "RPG") == Some(0);
  }
}
